=== FILE: README.md ===
# Reality glitch AR demo: gesture and status logic

This project models the logic inside the event handlers of the
augmented-reality demo's `scripts/main.js`. The DOM, A-Frame and timer
wiring around that logic is abstracted away. Four parts remain.

- **Drag-to-rotate and pinch-to-zoom** (`setupModelInteraction`), in module
  `Interaction`.
  - A mouse or touch down event starts a drag.
  - Each move during a drag adds half a degree of pitch per pixel of
    vertical motion and half a degree of yaw per pixel of horizontal motion
    to the model container. The roll is kept.
  - An up event ends the drag.
  - A two-finger touch move multiplies the uniform model scale by
    `1 + ((current - initial) / initial) * 0.2`, clamps it to `[0.1, 3.0]`,
    and stores the current finger distance for the next move.
  - The source registers two `touchstart` and two `touchmove` listeners, the
    drag one first. A two-finger move therefore rotates by its first touch
    (during a drag) and also rescales. `Step` runs both listeners in that
    order, and class `ModelInteraction` has one method per event.
  - Module `Geometry` holds points, attribute triples and the squared
    distance between touches.
- **Triple-tap debug toggle** (`setupDebugTools`), in module `DebugTools`.
  Every third click flips the debug panel and resets the tap count. The
  one-second reset timer of each click is a separate `ResetTimer` event.
- **Model-load progress** (`setupModelTracking`), in module `ModelTracking`.
  - Each `model-loaded` event counts one model.
  - It sets the loader bar to `loaded / 3 * 100` percent. There is no cap.
  - It hides the loading screen once three models are counted.
- **Tracking indicators** (`setupTrackingIndicators`), in module
  `TrackingIndicators`.
  - `markerFound` shows green and a message chosen by marker id.
  - `markerLost` shows red and the scan prompt.

Each stateful part has the same shape:

- a value datatype (`State`, `TapState`, `LoadState`);
- pure transition functions over it;
- lemmas about runs of events;
- a class whose fields are the handler's closure variables and the page
  attributes it writes. Each event method carries `modifies` and `old` in its
  contract: it ensures that `Snapshot()` equals the transition function
  applied to `old(Snapshot())`. The properties are proved about those
  functions.

Numbers are `real`. `Math.sqrt` is not modelled. A touch event instead
carries `span`, the distance the host computed between its first two
touches. `Geometry.IsDistance` ties `span` to the squared distance, and
`WellFormed` demands it of every touch event with exactly two touches.

Some facts about the code that shape the model:

- The container and the model are looked up once, at
  `scripts/main.js:232-233`.
- The pinch scale is one number, written on all three axes.
- Pinch and drag are not exclusive: a two-finger move does both.
- Each click starts its own one-second timer that resets the tap count.

## Model

| member | source | states |
|---|---|---|
| `Geometry.SquaredDistance` | scripts/main.js:348-350 | the squared distance between two touches is non-negative and zero exactly when they coincide |
| `Geometry.DistanceOrder` | scripts/main.js:348-350 | distances compare (less, equal) exactly as the squared distances do |
| `Geometry.IsDistance` | scripts/main.js:348-350 | stands in for `Math.sqrt`: a non-negative root of the squared distance, which is zero exactly when both touches are at the same point |
| `Interaction.Initial` | scripts/main.js:238-321 | handlers start with no drag and a scale of 0.5 within bounds |
| `Interaction.Clamp` | scripts/main.js:340 | `Math.max(lo, Math.min(v, hi))` lies in `[lo, hi]`, equals `v` inside it and the nearer bound outside |
| `Interaction.ScaleFactor` | scripts/main.js:339 | the factor is above 1 exactly when the fingers spread, equal to 1 exactly when the distance is unchanged, below 1 exactly when they close, and never below 0.8 |
| `Interaction.PinchScale` | scripts/main.js:339-340 | the new scale is within `[0.1, 3.0]`; from an in-bounds scale it grows exactly when the fingers spread and it is below 3.0, shrinks exactly when they close and it is above 0.1, and stays put for an unchanged distance |
| `Interaction.Rotate` | scripts/main.js:255-267 | pitch grows exactly with downward motion and yaw exactly with rightward motion, each changes exactly when the pointer moved along its axis, and roll never changes |
| `Interaction.Drag` | scripts/main.js:251-313 | the drag listener changes nothing without a drag; during one it remembers the new pointer and keeps roll; it never touches the drag flag or the pinch state |
| `Interaction.Pinch` | scripts/main.js:332-345 | the pinch listener ignores moves without exactly two touches; otherwise it stores the current distance and, when it had a positive stored distance, sets the scale to `PinchScale` of the old scale and the two distances and writes it on all three axes; without one the scale stays as it was; it keeps the scale in bounds and never touches the drag state or rotation |
| `Interaction.Step` | scripts/main.js:243-345 | every event keeps the scale within bounds and the stored distance non-negative; down events start a drag and remember their pointer (the mouse position or the first touch), up events end it without rotating, moves keep the drag flag, only moves can change the rotation, only a touch move can change the scale, and only a two-finger touchstart or a touch move can change the stored distance |
| `Interaction.RunKeepsInv` | scripts/main.js:243-345 | any sequence of events keeps the scale within `[0.1, 3.0]` |
| `Interaction.RotateComposes` | scripts/main.js:255-267 | moving p to q and then q to t turns the container as far as p to t |
| `Interaction.RotateBack` | scripts/main.js:255-267 | moving the pointer away and back restores the rotation |
| `Interaction.DragFollowsPointer` | scripts/main.js:251-313 | during a drag, after any path of non-pinching moves the rotation is the start rotation plus half a degree per pixel from the remembered pointer to the current one (pitch from dy, yaw from dx), roll unchanged, and the last position is remembered |
| `Interaction.IdleMovesChangeNothing` | scripts/main.js:251-252 | without a drag, moves never rotate, never move the remembered pointer and never start a drag; non-pinching moves change nothing at all |
| `Interaction.ReleaseStopsRotation` | scripts/main.js:275-317 | after mouseup or touchend, no sequence of moves changes the rotation and the drag stays off |
| `Interaction.TwoFingerStart` | scripts/main.js:280-330 | a two-finger touchstart starts a drag at the first touch and stores the finger distance, which is zero exactly when the touches coincide |
| `Interaction.PinchMove` | scripts/main.js:332-345 | a two-finger move against a positive stored distance sets the scale to `PinchScale` of the old scale and the two distances, which is in bounds, grows exactly when the fingers spread below 3.0 and shrinks exactly when they close above 0.1; it writes the scale on all three axes and stores the current distance; the drag flag is untouched, and during a drag the same move rotates by the first touch and remembers it |
| `Interaction.PinchFollowsTouches` | scripts/main.js:323-345 | after a two-finger touchstart on distinct points, the next two-finger move grows the scale exactly when the touches are now farther apart and it is below 3.0, shrinks it exactly when they are closer and it is above 0.1, and keeps it when the distance is unchanged, judged on the touch coordinates |
| `Interaction.PinchCompounds` | scripts/main.js:339-343 | without hitting a bound, two successive moves multiply the scale by the product of their factors |
| `Interaction.PinchExamples` | scripts/main.js:339-340 | 100 to 120 pixels takes 0.5 to 0.52; 100 to 110 to 121 gives 0.5202, not the 0.521 of a single move |
| `Interaction.PinchMovesCompound` | scripts/main.js:332-345 | two two-finger move events that hit no bound multiply the scale by the factor of each, the second judged against the distance the first stored |
| `Interaction.DragFromDown` | scripts/main.js:243-273 | after a mouse down and any path of non-pinching moves, the container is turned by half a degree per pixel from the down position to the last pointer position, and that position is remembered |
| `Interaction.PinchWithoutBaseline` | scripts/main.js:332-345 | a two-finger move with stored distance 0 leaves the scale unchanged and stores the current distance |
| `Interaction.PinchScaleAsWritten` | scripts/main.js:339-340 | the expression as JavaScript evaluates it: never +Infinity, in bounds when finite, NaN exactly when the scale already was NaN or both distances are 0, and 3.0 for any spread from a stored distance of 0 |
| `Interaction.AsWrittenPinchWithoutBaseline` | scripts/main.js:339-340 | as written, a stored distance of 0 makes a one-pixel spread jump the scale to 3.0 (from 0.5, or from the 0.4 a closing move from 100 pixels leaves) and coincident touches make it NaN, which a later ordinary move keeps |
| `Interaction.ModelInteraction.constructor` | scripts/main.js:238-321 | the closure starts as `Initial`: no drag, pointer (0, 0), stored distance 0, scale 0.5 |
| `Interaction.ModelInteraction.OnMouseDown` | scripts/main.js:243-249 | starts a drag at the pointer; the new state is `Step` of the old one |
| `Interaction.ModelInteraction.DragTo` | scripts/main.js:251-273 | the drag listener: rotates and remembers the pointer only while dragging (`Drag`) |
| `Interaction.ModelInteraction.OnMouseMove` | scripts/main.js:251-273 | the new state is `Step` of the old one for a mouse move |
| `Interaction.ModelInteraction.OnMouseUp` | scripts/main.js:275-277 | ends the drag and changes nothing else |
| `Interaction.ModelInteraction.OnTouchStart` | scripts/main.js:280-330 | both touchstart listeners in order: drag start at the first touch, then the stored distance for two touches |
| `Interaction.ModelInteraction.OnTouchMove` | scripts/main.js:290-345 | both touchmove listeners in order: the drag by the first touch, then the pinch rescale; keeps the scale in bounds |
| `Interaction.ModelInteraction.OnTouchEnd` | scripts/main.js:315-317 | ends the drag and changes nothing else |
| `DebugTools.Tap` | scripts/main.js:198-205 | a click keeps the count in {0, 1, 2}, flips the panel exactly on the third tap and then leaves the count at 0, otherwise adds one |
| `DebugTools.Reset` | scripts/main.js:206-209 | the timer sets the count to 0 without touching the panel, so three further clicks flip it |
| `DebugTools.RunKeepsInv` | scripts/main.js:198-210 | in any order of clicks and timers the count stays in {0, 1, 2} |
| `DebugTools.TapsCycle` | scripts/main.js:198-205 | after n uninterrupted clicks the count is (count + n) mod 3 and the panel has flipped once per completed group of three |
| `DebugTools.ThirdTapAfterReset` | scripts/main.js:198-209 | a reset and three clicks flip the panel exactly once and leave the count at 0 |
| `DebugTools.TwoTapsThenTimer` | scripts/main.js:198-209 | two clicks and a timer leave the count at 0 and the panel unchanged |
| `DebugTools.DebugPanel.constructor` | scripts/main.js:197 | the count starts at 0 |
| `DebugTools.DebugPanel.OnClick` | scripts/main.js:198-205 | the new state is `Tap` of the old one; the count stays below 3 |
| `DebugTools.DebugPanel.OnResetTimer` | scripts/main.js:206-209 | the new state is `Reset` of the old one |
| `ModelTracking.Progress` | scripts/main.js:175 | the progress is `loaded * 100 / 3`: exactly 100 at three models and above 100 past three |
| `ModelTracking.ProgressIncreases` | scripts/main.js:175 | more models give a wider bar |
| `ModelTracking.ModelLoaded` | scripts/main.js:170-182 | each event adds exactly one, never un-hides the screen, leaves the bar alone without a loader, and hides the screen once three are counted |
| `ModelTracking.LoadsCount` | scripts/main.js:170-182 | after n events the count grew by n, the bar shows the new count's progress, and the screen is hidden exactly when it was already or the count reached 3 |
| `ModelTracking.FourthLoadOverflows` | scripts/main.js:171-176 | from a fresh page the bar is at 100 after three events and past 100 after the fourth |
| `ModelTracking.LoadTracker.constructor` | scripts/main.js:165-167 | the count starts at 0 |
| `ModelTracking.LoadTracker.OnModelLoaded` | scripts/main.js:170-182 | the new state is `ModelLoaded` of the old one; the screen is hidden whenever three or more are counted |
| `TrackingIndicators.FoundMessage` | scripts/main.js:34-43 | one of four fixed messages, the default exactly for ids other than the three markers, never the scan prompt |
| `TrackingIndicators.FoundMessageIdentifiesMarker` | scripts/main.js:35-43 | the three markers get three different messages |
| `TrackingIndicators.StatusDisplay.OnMarkerFound` | scripts/main.js:30-46 | the status turns green and the instructions become the message for the marker id |
| `TrackingIndicators.StatusDisplay.OnMarkerLost` | scripts/main.js:48-53 | the status turns red and the instructions become the scan prompt, whatever the marker |

## Findings

| source | as written | input that shows it | evidently intended | confidence | as-written member | corrected member |
|---|---|---|---|---|---|---|
| scripts/main.js:339-343 | divides by `initialDistance`, which is 0 before any two-finger touchstart and after any move whose two touches coincide | from the initial state (stored distance 0 because no two-finger touchstart has happened yet), or after a two-finger touchstart on a single point, a two-finger move one pixel apart makes the scale jump from 0.5 to 3.0; a move that brings the two touches together from a positive stored distance first multiplies the scale by 0.8 and stores 0, and the next spread then jumps to 3.0 from that value; kept together for one more move: the scale becomes NaN, and every later move keeps it NaN because NaN passes through `*`, `Math.min` and `Math.max` | without a positive stored distance, skip the rescale and only store the current distance, so the scale stays in `[0.1, 3.0]` and never moves against the fingers | not executed | `Interaction.AsWrittenPinchWithoutBaseline` | `Interaction.PinchWithoutBaseline` |

`Interaction.Step`, and with it class `ModelInteraction`, uses the corrected
behaviour. `Interaction.RunKeepsInv` proves that the scale then stays in
bounds for every sequence of events.

## Left out

- The page load wiring at scripts/main.js:2-22 is left out. So is the
  5-second timeout that hides the loading screen at scripts/main.js:4-6. It
  is a timer. `ModelTracking.ModelLoaded` only ever hides the screen, so the
  screen may already be hidden when an event arrives.
- `setupGlitchEffects` (scripts/main.js:57-100) is left out. It depends on
  `Math.random`, `setInterval` and `setTimeout`.
- `setupInteractions` and `setupModelInteractions` (scripts/main.js:103-161)
  are left out. They close the help card and set A-Frame animation and
  particle attribute strings with 2-second timers.
- The `gltf-model` `loaded` listeners (scripts/main.js:185-189), `log`
  (scripts/main.js:214-221) and the `DOMContentLoaded` handler at
  scripts/main.js:224-226 only log, so they are left out. The other
  `DOMContentLoaded` handler (scripts/main.js:354-356) calls
  `setupModelInteraction`; it is the constructor of `ModelInteraction`.
- DOM lookups and `preventDefault` are left out. This includes the early
  return at scripts/main.js:235 when the model or the container is missing:
  the model assumes both exist.
- The unused `rotationSpeed` (scripts/main.js:240) is left out.
- `getDistance`'s `Math.sqrt` is supplied by the host as `span`. It is
  constrained only by `Geometry.IsDistance`.
- IEEE 754 arithmetic is not modelled. All numbers are exact reals.
  Infinity and NaN appear only in `Interaction.PinchScaleAsWritten`.
- DebugTools.Reset: the model keeps the order of events but not their
  timing. It does not count pending timers, so a `ResetTimer` event may occur
  at any point in a run, including where no click scheduled one.

=== FILE: debug_tools.dfy ===
/**
 * The triple-tap toggle of the debug panel (setupDebugTools in
 * scripts/main.js).
 *
 * Every click anywhere on the page counts one tap; the third tap flips the
 * panel between shown and hidden and starts the count again. Every click
 * also schedules a timer that sets the count back to zero one second later;
 * that timer firing is the separate event ResetTimer, which may arrive at
 * any point after the click that scheduled it.
 */
module DebugTools {

  /** The tap that flips the panel. */
  const TapsToToggle: nat := 3

  /**
   * The closure's tap counter and the panel's display: `panelHidden` is
   * style.display === 'none'; a toggle writes 'block' when it was hidden
   * and 'none' otherwise.
   */
  datatype TapState = TapState(tapCount: nat, panelHidden: bool)

  datatype DebugEvent = Click | ResetTimer

  /** The count never reaches the toggling value between events. */
  predicate Inv(s: TapState)
  {
    s.tapCount < TapsToToggle
  }

  /**
   * The click listener: one more tap; the panel flips exactly when this is
   * the third tap, and then the count is back to zero.
   */
  function Tap(s: TapState): (t: TapState)
    ensures Inv(s) ==> Inv(t)
    ensures t.panelHidden != s.panelHidden <==> s.tapCount + 1 == TapsToToggle
    ensures s.tapCount + 1 == TapsToToggle ==> t.tapCount == 0
    ensures s.tapCount + 1 != TapsToToggle ==> t.tapCount == s.tapCount + 1
  {
    var count := s.tapCount + 1;
    if count == TapsToToggle then TapState(0, !s.panelHidden) else TapState(count, s.panelHidden)
  }

  /** The delayed reset: the count is zero and the panel is left as it is. */
  function Reset(s: TapState): (t: TapState)
    ensures t.tapCount == 0 && t.panelHidden == s.panelHidden
    ensures Tap(Tap(Tap(t))).panelHidden != s.panelHidden
  {
    s.(tapCount := 0)
  }

  function Apply(s: TapState, e: DebugEvent): TapState
  {
    match e
    case Click => Tap(s)
    case ResetTimer => Reset(s)
  }

  function Run(s: TapState, es: seq<DebugEvent>): TapState
    decreases |es|
  {
    if es == [] then s else Run(Apply(s, es[0]), es[1..])
  }

  /** Whatever the order of clicks and timers, the count stays in {0, 1, 2}. */
  lemma {:induction false} RunKeepsInv(s: TapState, es: seq<DebugEvent>)
    requires Inv(s)
    ensures Inv(Run(s, es))
    decreases |es|
  {
    if es != [] {
      RunKeepsInv(Apply(s, es[0]), es[1..]);
    }
  }

  /** `n` clicks with no timer firing in between. */
  function Taps(s: TapState, n: nat): TapState
  {
    if n == 0 then s else Tap(Taps(s, n - 1))
  }

  /**
   * Uninterrupted clicks cycle through the counts: after `n` of them the
   * count is the number of taps so far modulo three, and the panel has flipped
   * once per completed group of three.
   */
  lemma {:induction false} TapsCycle(s: TapState, n: nat)
    requires Inv(s)
    ensures Taps(s, n).tapCount == (s.tapCount + n) % TapsToToggle
    ensures Taps(s, n).panelHidden == (s.panelHidden != (((s.tapCount + n) / TapsToToggle) % 2 == 1))
  {
    if n > 0 {
      TapsCycle(s, n - 1);
      var m := s.tapCount + n - 1;
      if m % 3 == 2 {
        assert (m + 1) % 3 == 0 && (m + 1) / 3 == m / 3 + 1;
      } else {
        assert (m + 1) % 3 == m % 3 + 1 && (m + 1) / 3 == m / 3;
      }
    }
  }

  /** Three clicks after a reset flip the panel exactly once and leave the count at zero. */
  lemma ThirdTapAfterReset(s: TapState)
    ensures Run(s, [ResetTimer, Click, Click, Click]) == TapState(0, !s.panelHidden)
  {
    assert [ResetTimer, Click, Click, Click][1..] == [Click, Click, Click];
    assert [Click, Click, Click][1..] == [Click, Click];
    assert [Click, Click][1..] == [Click];
  }

  /** Two clicks and then the timer: the count is back at zero and the panel is unchanged. */
  lemma TwoTapsThenTimer(s: TapState)
    requires s.tapCount == 0
    ensures Run(s, [Click, Click, ResetTimer]) == s
  {
    assert [Click, Click, ResetTimer][1..] == [Click, ResetTimer];
    assert [Click, ResetTimer][1..] == [ResetTimer];
  }

  /** The listener state of setupDebugTools. */
  class DebugPanel {
    var tapCount: nat
    var panelHidden: bool

    function Snapshot(): TapState
      reads this
    {
      TapState(tapCount, panelHidden)
    }

    ghost predicate Valid()
      reads this
    {
      Inv(Snapshot())
    }

    /** `hidden` is whether the panel's display is 'none' when the page loads. */
    constructor (hidden: bool)
      ensures Valid() && Snapshot() == TapState(0, hidden)
    {
      tapCount := 0;
      panelHidden := hidden;
    }

    method OnClick()
      requires Valid()
      modifies this
      ensures Valid() && Snapshot() == Tap(old(Snapshot()))
    {
      tapCount := tapCount + 1;
      if tapCount == TapsToToggle {
        panelHidden := !panelHidden;
        tapCount := 0;
      }
    }

    method OnResetTimer()
      requires Valid()
      modifies this
      ensures Valid() && Snapshot() == Reset(old(Snapshot()))
    {
      tapCount := 0;
    }
  }
}

=== FILE: geometry.dfy ===
/** Screen points, attribute triples and the distance between two touch points. */
module Geometry {

  /** A position on the screen (clientX, clientY), in pixels. */
  datatype Point = Point(x: real, y: real)

  /** A three-component scene attribute: a rotation in degrees or a per-axis scale. */
  datatype Vec3 = Vec3(x: real, y: real, z: real)

  /** The same value on all three axes, as written by the attribute string "s s s". */
  function Uniform(s: real): Vec3
  {
    Vec3(s, s, s)
  }

  /** The square of the Euclidean distance between two touch points. */
  function SquaredDistance(a: Point, b: Point): (d: real)
    ensures d >= 0.0
    ensures d == 0.0 <==> a == b
  {
    var dx, dy := b.x - a.x, b.y - a.y;
    SquareSign(dx);
    SquareSign(dy);
    dx * dx + dy * dy
  }

  /** A square is never negative, and is zero only for zero. */
  lemma SquareSign(v: real)
    ensures v * v >= 0.0
    ensures v * v == 0.0 <==> v == 0.0
  {
    if v > 0.0 {
      SquareLess(0.0, v);
    } else if v < 0.0 {
      SquareLess(0.0, -v);
      assert (-v) * (-v) == v * v;
    }
  }

  /** Squaring is strictly increasing on the non-negative reals. */
  lemma SquareLess(a: real, b: real)
    requires 0.0 <= a < b
    ensures a * a < b * b
  {
    calc {
      a * a;
    <= a * b;
    <  b * b;
    }
  }

  /**
   * `d` is the distance between `a` and `b`: the non-negative square root
   * of their squared distance. The square root itself is computed by the
   * host, so every distance in this model is one the host supplied and
   * this predicate vouches for. Such a distance is zero exactly when both
   * touches are at the same point.
   */
  predicate IsDistance(d: real, a: Point, b: Point)
    ensures IsDistance(d, a, b) ==> (d == 0.0 <==> a == b)
  {
    SquareSign(d);
    d >= 0.0 && d * d == SquaredDistance(a, b)
  }

  /** Distances compare exactly as squared distances do, so a pinch can be judged without square roots. */
  lemma DistanceOrder(d1: real, a1: Point, b1: Point, d2: real, a2: Point, b2: Point)
    requires IsDistance(d1, a1, b1) && IsDistance(d2, a2, b2)
    ensures d1 < d2 <==> SquaredDistance(a1, b1) < SquaredDistance(a2, b2)
    ensures d1 == d2 <==> SquaredDistance(a1, b1) == SquaredDistance(a2, b2)
  {
    if d1 < d2 {
      SquareLess(d1, d2);
    } else if d2 < d1 {
      SquareLess(d2, d1);
    }
  }
}

=== FILE: interaction.dfy ===
/**
 * Drag-to-rotate and pinch-to-zoom on the interactive model
 * (setupModelInteraction in scripts/main.js).
 *
 * The scene receives mouse and touch events. A drag turns the model
 * container: vertical pointer motion changes pitch (x), horizontal motion
 * changes yaw (y), roll (z) is never touched. A two-finger touch move
 * rescales the model uniformly by a damped ratio of the finger distances,
 * clamped to [MinScale, MaxScale].
 *
 * Both touchstart and touchmove have two listeners each, registered in
 * this order: the drag listener and then the pinch listener. A two-finger
 * move therefore rotates by the first touch (when a drag is on) and also
 * rescales. Step runs both in that order.
 */
module Interaction {
  import opened Geometry

  /** Degrees of rotation per pixel of pointer motion. */
  const DragSensitivity: real := 0.5
  /** Share of the relative change of finger distance that reaches the scale. */
  const PinchSensitivity: real := 0.2
  const MinScale: real := 0.1
  const MaxScale: real := 3.0
  /** The value currentScale starts with. */
  const InitialScale: real := 0.5

  /** The closure state of setupModelInteraction plus the two scene attributes it writes. */
  datatype State = State(
    isDragging: bool,
    previousMousePosition: Point,
    rotation: Vec3,          // rotation attribute of the model container
    initialDistance: real,
    currentScale: real,
    modelScale: Vec3)        // scale attribute of the model

  /**
   * The events the scene listens to. A touch event carries its touch list and
   * `span`, the distance between its first two touches as the host computes it
   * (Math.sqrt in getDistance); `span` is only looked at when there are exactly
   * two touches.
   */
  datatype Event =
    | MouseDown(at: Point)
    | MouseMove(at: Point)
    | MouseUp
    | TouchStart(touches: seq<Point>, span: real)
    | TouchMove(touches: seq<Point>, span: real)
    | TouchEnd

  /**
   * What the browser guarantees of an event: touchstart and touchmove carry at
   * least one touch, and `span` is the real distance when there are two.
   */
  predicate WellFormed(e: Event)
  {
    match e
    case TouchStart(ts, span) => |ts| >= 1 && (|ts| == 2 ==> IsDistance(span, ts[0], ts[1]))
    case TouchMove(ts, span) => |ts| >= 1 && (|ts| == 2 ==> IsDistance(span, ts[0], ts[1]))
    case _ => true
  }

  predicate AllWellFormed(es: seq<Event>)
  {
    forall i :: 0 <= i < |es| ==> WellFormed(es[i])
  }

  /** The scale stays within its bounds and the stored finger distance is a distance. */
  predicate Inv(s: State)
  {
    MinScale <= s.currentScale <= MaxScale && s.initialDistance >= 0.0
  }

  /** The state once the handlers are registered. */
  function Initial(rotation: Vec3, modelScale: Vec3): (s: State)
    ensures Inv(s) && !s.isDragging
  {
    State(false, Point(0.0, 0.0), rotation, 0.0, InitialScale, modelScale)
  }

  /**
   * The container's rotation after the pointer moved from `prev` to `cur`:
   * pitch grows with downward motion and yaw with rightward motion, each
   * changes exactly when the pointer moved along its axis, and roll never
   * changes.
   */
  function Rotate(rotation: Vec3, prev: Point, cur: Point): (r: Vec3)
    ensures r.x > rotation.x <==> cur.y > prev.y
    ensures r.x == rotation.x <==> cur.y == prev.y
    ensures r.y > rotation.y <==> cur.x > prev.x
    ensures r.y == rotation.y <==> cur.x == prev.x
    ensures r.z == rotation.z
  {
    Vec3(rotation.x + (cur.y - prev.y) * DragSensitivity,
         rotation.y + (cur.x - prev.x) * DragSensitivity,
         rotation.z)
  }

  /** Math.max(lo, Math.min(v, hi)). */
  function Clamp(v: real, lo: real, hi: real): (r: real)
    requires lo <= hi
    ensures lo <= r <= hi
    ensures lo <= v <= hi ==> r == v
    ensures v < lo ==> r == lo
    ensures hi < v ==> r == hi
  {
    if v > hi then hi else if v < lo then lo else v
  }

  /**
   * The factor a two-finger move applies to the scale: above one exactly when
   * the fingers moved apart, one when their distance is unchanged, and never
   * below 1 - PinchSensitivity.
   */
  function ScaleFactor(initialDistance: real, currentDistance: real): (f: real)
    requires initialDistance > 0.0
    ensures f > 1.0 <==> currentDistance > initialDistance
    ensures f == 1.0 <==> currentDistance == initialDistance
    ensures f < 1.0 <==> currentDistance < initialDistance
    ensures currentDistance >= 0.0 ==> f >= 1.0 - PinchSensitivity
  {
    var q := (currentDistance - initialDistance) / initialDistance;
    assert q * initialDistance == currentDistance - initialDistance;
    assert q > 0.0 <==> currentDistance > initialDistance by {
      if q > 0.0 { PositiveProduct(q, initialDistance); }
      if currentDistance > initialDistance && q <= 0.0 { NonPositiveProduct(q, initialDistance); }
    }
    assert q < 0.0 <==> currentDistance < initialDistance by {
      if q < 0.0 { NonPositiveProduct(q, initialDistance); }
      if currentDistance < initialDistance && q >= 0.0 { NonNegativeProduct(q, initialDistance); }
    }
    assert currentDistance >= 0.0 ==> q >= -1.0 by {
      if currentDistance >= 0.0 && q < -1.0 {
        NonPositiveProduct(q + 1.0, initialDistance);
      }
    }
    1.0 + q * PinchSensitivity
  }

  lemma PositiveProduct(a: real, b: real)
    requires a > 0.0 && b > 0.0
    ensures a * b > 0.0
  {
  }

  lemma NonNegativeProduct(a: real, b: real)
    requires a >= 0.0 && b > 0.0
    ensures a * b >= 0.0
  {
  }

  lemma NonPositiveProduct(a: real, b: real)
    requires a <= 0.0 && b > 0.0
    ensures a * b <= 0.0
    ensures a < 0.0 ==> a * b < 0.0
  {
    if a < 0.0 {
      PositiveProduct(-a, b);
      assert (-a) * b == -(a * b);
    }
  }

  /**
   * currentScale after one two-finger move: the old scale times the scale
   * factor, clamped. From a scale within bounds it moves with the fingers:
   * it grows exactly when they spread and it is below the upper bound,
   * shrinks exactly when they close and it is above the lower bound, and
   * stays put when their distance does not change.
   */
  function PinchScale(scale: real, initialDistance: real, currentDistance: real): (r: real)
    requires initialDistance > 0.0
    ensures MinScale <= r <= MaxScale
    ensures MinScale <= scale <= MaxScale ==>
      (r > scale ==> currentDistance > initialDistance) &&
      (r < scale ==> currentDistance < initialDistance) &&
      (currentDistance == initialDistance ==> r == scale)
    ensures MinScale <= scale < MaxScale && currentDistance > initialDistance ==> r > scale
    ensures MinScale < scale <= MaxScale && currentDistance < initialDistance ==> r < scale
  {
    var f := ScaleFactor(initialDistance, currentDistance);
    var v := scale * f;
    assert scale > 0.0 ==> (f < 1.0 ==> v < scale) && (f > 1.0 ==> v > scale) && (f == 1.0 ==> v == scale) by {
      if scale > 0.0 && f < 1.0 { NonPositiveProduct(f - 1.0, scale); }
      if scale > 0.0 && f > 1.0 { PositiveProduct(f - 1.0, scale); }
    }
    Clamp(v, MinScale, MaxScale)
  }

  /** The mousemove/touchmove drag listener: rotate and remember the pointer, only while dragging. */
  function Drag(s: State, at: Point): (r: State)
    ensures r.isDragging == s.isDragging && r.initialDistance == s.initialDistance
    ensures r.currentScale == s.currentScale && r.modelScale == s.modelScale
    ensures !s.isDragging ==> r == s
    ensures s.isDragging ==> r.previousMousePosition == at && r.rotation.z == s.rotation.z
  {
    if s.isDragging then
      s.(rotation := Rotate(s.rotation, s.previousMousePosition, at), previousMousePosition := at)
    else s
  }

  /**
   * The touchmove pinch listener, for `span` the distance of the first two
   * touches. With no positive distance to compare against, the move only
   * records the new distance (see the finding on PinchScaleAsWritten).
   */
  function Pinch(s: State, touches: seq<Point>, span: real): (r: State)
    ensures r.isDragging == s.isDragging && r.rotation == s.rotation
    ensures r.previousMousePosition == s.previousMousePosition
    ensures |touches| != 2 ==> r == s
    ensures |touches| == 2 ==> r.initialDistance == span
    ensures |touches| == 2 && s.initialDistance > 0.0 ==>
      r.currentScale == PinchScale(s.currentScale, s.initialDistance, span) && r.modelScale == Uniform(r.currentScale)
    ensures s.initialDistance <= 0.0 ==> r.currentScale == s.currentScale && r.modelScale == s.modelScale
    ensures Inv(s) && (|touches| == 2 ==> span >= 0.0) ==> Inv(r)
  {
    if |touches| != 2 then s
    else if s.initialDistance > 0.0 then
      var scale := PinchScale(s.currentScale, s.initialDistance, span);
      s.(currentScale := scale, modelScale := Uniform(scale), initialDistance := span)
    else s.(initialDistance := span)
  }

  /** One event, dispatched to every listener registered for it, in order. */
  function Step(s: State, e: Event): (r: State)
    requires WellFormed(e)
    ensures Inv(s) ==> Inv(r)
    ensures e.MouseDown? || e.TouchStart? ==> r.isDragging
    ensures e.MouseDown? ==> r.previousMousePosition == e.at
    ensures e.TouchStart? ==> r.previousMousePosition == e.touches[0]
    ensures e.MouseUp? || e.TouchEnd? ==> !r.isDragging && r.rotation == s.rotation
    ensures e.MouseMove? || e.TouchMove? ==> r.isDragging == s.isDragging
    ensures !e.TouchMove? ==> r.currentScale == s.currentScale && r.modelScale == s.modelScale
    ensures !IsMove(e) ==> r.rotation == s.rotation
    ensures !(e.TouchStart? && |e.touches| == 2) && !e.TouchMove? ==> r.initialDistance == s.initialDistance
  {
    match e
    case MouseDown(at) => s.(isDragging := true, previousMousePosition := at)
    case MouseMove(at) => Drag(s, at)
    case MouseUp => s.(isDragging := false)
    case TouchStart(ts, span) =>
      var dragging := s.(isDragging := true, previousMousePosition := ts[0]);
      if |ts| == 2 then dragging.(initialDistance := span) else dragging
    case TouchMove(ts, span) => Pinch(Drag(s, ts[0]), ts, span)
    case TouchEnd => s.(isDragging := false)
  }

  /** A sequence of events, in arrival order. */
  function Run(s: State, es: seq<Event>): State
    requires AllWellFormed(es)
    decreases |es|
  {
    if es == [] then s else Run(Step(s, es[0]), es[1..])
  }

  /** Whatever the events, the scale never leaves [MinScale, MaxScale]. */
  lemma {:induction false} RunKeepsInv(s: State, es: seq<Event>)
    requires Inv(s) && AllWellFormed(es)
    ensures Inv(Run(s, es))
    decreases |es|
  {
    if es != [] {
      RunKeepsInv(Step(s, es[0]), es[1..]);
    }
  }

  /** Moving the pointer from p to q and then to t turns the container as far as moving from p to t at once. */
  lemma RotateComposes(rotation: Vec3, p: Point, q: Point, t: Point)
    ensures Rotate(Rotate(rotation, p, q), q, t) == Rotate(rotation, p, t)
  {
  }

  /** A pointer moved and brought back leaves the rotation as it was. */
  lemma RotateBack(rotation: Vec3, p: Point, q: Point)
    ensures Rotate(Rotate(rotation, p, q), q, p) == rotation
  {
  }

  /** A move event that never pinches: a mouse move, or a touch move without exactly two touches. */
  predicate IsDragMove(e: Event)
  {
    e.MouseMove? || (e.TouchMove? && |e.touches| != 2)
  }

  /** Any move event: mouse move or touch move. */
  predicate IsMove(e: Event)
  {
    e.MouseMove? || e.TouchMove?
  }

  /** The pointer position a drag listener reads from a move event. */
  function MoveTarget(e: Event): Point
    requires IsMove(e) && WellFormed(e)
  {
    if e.MouseMove? then e.at else e.touches[0]
  }

  /**
   * During a drag the rotation depends only on where the pointer started and
   * where it is now: after any path of moves, the container is turned by half
   * a degree per pixel between the two, the roll is unchanged, the pinch state
   * is unchanged, and the last position is remembered.
   */
  lemma {:induction false} DragFollowsPointer(s: State, es: seq<Event>)
    requires s.isDragging && |es| > 0 && AllWellFormed(es)
    requires forall i :: 0 <= i < |es| ==> IsDragMove(es[i])
    ensures IsMove(es[|es| - 1]) && var last := MoveTarget(es[|es| - 1]);
      Run(s, es) == s.(rotation := Rotate(s.rotation, s.previousMousePosition, last),
                       previousMousePosition := last)
    ensures Run(s, es).rotation.z == s.rotation.z
    decreases |es|
  {
    var t := Step(s, es[0]);
    assert t == s.(rotation := Rotate(s.rotation, s.previousMousePosition, MoveTarget(es[0])),
                   previousMousePosition := MoveTarget(es[0]));
    if |es| > 1 {
      DragFollowsPointer(t, es[1..]);
      assert es[1..][|es| - 2] == es[|es| - 1];
      RotateComposes(s.rotation, s.previousMousePosition, MoveTarget(es[0]), MoveTarget(es[|es| - 1]));
    }
  }

  /**
   * Without a drag in progress, moves never rotate the container nor move the
   * remembered pointer, and they do not start a drag; moves that do not pinch
   * change nothing at all.
   */
  lemma {:induction false} IdleMovesChangeNothing(s: State, es: seq<Event>)
    requires !s.isDragging && AllWellFormed(es)
    requires forall i :: 0 <= i < |es| ==> IsMove(es[i])
    ensures var t := Run(s, es);
      !t.isDragging && t.rotation == s.rotation && t.previousMousePosition == s.previousMousePosition
    ensures (forall i :: 0 <= i < |es| ==> IsDragMove(es[i])) ==> Run(s, es) == s
    decreases |es|
  {
    if es != [] {
      var t := Step(s, es[0]);
      assert !t.isDragging && t.rotation == s.rotation && t.previousMousePosition == s.previousMousePosition;
      assert IsDragMove(es[0]) ==> t == s;
      IdleMovesChangeNothing(t, es[1..]);
    }
  }

  /** After mouseup or touchend, no move rotates the container until the next down event. */
  lemma ReleaseStopsRotation(s: State, release: Event, es: seq<Event>)
    requires release == MouseUp || release == TouchEnd
    requires AllWellFormed(es)
    requires forall i :: 0 <= i < |es| ==> IsMove(es[i])
    ensures AllWellFormed([release] + es)
    ensures Run(s, [release] + es).rotation == s.rotation
    ensures !Run(s, [release] + es).isDragging
  {
    var all := [release] + es;
    assert all[1..] == es;
    assert AllWellFormed(all) by {
      forall i | 0 <= i < |all| ensures WellFormed(all[i]) {
        if i > 0 { assert all[i] == es[i - 1]; }
      }
    }
    IdleMovesChangeNothing(s.(isDragging := false), es);
  }

  /**
   * A two-finger move against a positive stored distance: the scale becomes
   * the rescaled value, moves with the fingers (up when they spread, down
   * when they close, unless already at that bound), is written uniformly on
   * all three axes, and the stored distance becomes the current one, so the
   * next move compares against this one.
   */
  lemma PinchMove(s: State, touches: seq<Point>, span: real)
    requires Inv(s) && s.initialDistance > 0.0
    requires |touches| == 2 && WellFormed(TouchMove(touches, span))
    ensures var t := Step(s, TouchMove(touches, span));
      && t.currentScale == PinchScale(s.currentScale, s.initialDistance, span)
      && MinScale <= t.currentScale <= MaxScale
      && t.modelScale == Vec3(t.currentScale, t.currentScale, t.currentScale)
      && t.initialDistance == span
      && (t.currentScale > s.currentScale ==> span > s.initialDistance)
      && (t.currentScale < s.currentScale ==> span < s.initialDistance)
      && (span == s.initialDistance ==> t.currentScale == s.currentScale)
      && (span > s.initialDistance && s.currentScale < MaxScale ==> t.currentScale > s.currentScale)
      && (span < s.initialDistance && s.currentScale > MinScale ==> t.currentScale < s.currentScale)
      && t.isDragging == s.isDragging
      && t.rotation == (if s.isDragging then Rotate(s.rotation, s.previousMousePosition, touches[0]) else s.rotation)
      && t.previousMousePosition == (if s.isDragging then touches[0] else s.previousMousePosition)
  {
  }

  /**
   * Successive moves compound: as long as no bound is hit, two moves multiply
   * the scale by the product of their two factors.
   */
  lemma PinchCompounds(scale: real, d0: real, d1: real, d2: real)
    requires d0 > 0.0 && d1 > 0.0
    requires MinScale <= scale * ScaleFactor(d0, d1) <= MaxScale
    requires MinScale <= scale * ScaleFactor(d0, d1) * ScaleFactor(d1, d2) <= MaxScale
    ensures PinchScale(PinchScale(scale, d0, d1), d1, d2) == scale * ScaleFactor(d0, d1) * ScaleFactor(d1, d2)
  {
    var f1, f2 := ScaleFactor(d0, d1), ScaleFactor(d1, d2);
    var a := scale * f1;
    assert PinchScale(scale, d0, d1) == Clamp(a, MinScale, MaxScale) == a;
    assert PinchScale(a, d1, d2) == Clamp(a * f2, MinScale, MaxScale) == a * f2;
  }

  /**
   * Worked examples: 100 to 120 pixels takes 0.5 to 0.52; 100 to 110 to 121
   * takes 0.5 to 0.5 * 1.02 * 1.02, slightly less than one move from 100 to 121.
   */
  lemma PinchExamples()
    ensures PinchScale(0.5, 100.0, 120.0) == 0.52
    ensures PinchScale(PinchScale(0.5, 100.0, 110.0), 110.0, 121.0) == 0.5202
    ensures PinchScale(0.5, 100.0, 121.0) == 0.521
  {
    PinchCompounds(0.5, 100.0, 110.0, 121.0);
  }

  /** A two-finger touchstart starts a drag at the first touch and stores the finger distance. */
  lemma TwoFingerStart(s: State, touches: seq<Point>, span: real)
    requires |touches| == 2 && WellFormed(TouchStart(touches, span))
    ensures var t := Step(s, TouchStart(touches, span));
      t.isDragging && t.previousMousePosition == touches[0] && t.initialDistance == span &&
      (t.initialDistance == 0.0 <==> touches[0] == touches[1])
  {
  }

  /**
   * A pinch judged on the touch points themselves: after a two-finger
   * touchstart on two distinct points, the next two-finger move grows the
   * scale exactly when the touches are now farther apart and the scale is
   * below its upper bound, shrinks it exactly when they are closer and the
   * scale is above its lower bound, and leaves it unchanged when their
   * distance is.
   */
  lemma PinchFollowsTouches(s: State, start: seq<Point>, d0: real, now: seq<Point>, d1: real)
    requires Inv(s)
    requires |start| == 2 && start[0] != start[1] && WellFormed(TouchStart(start, d0))
    requires |now| == 2 && WellFormed(TouchMove(now, d1))
    ensures AllWellFormed([TouchStart(start, d0), TouchMove(now, d1)])
    ensures var t := Run(s, [TouchStart(start, d0), TouchMove(now, d1)]);
      && (t.currentScale > s.currentScale ==> SquaredDistance(now[0], now[1]) > SquaredDistance(start[0], start[1]))
      && (t.currentScale < s.currentScale ==> SquaredDistance(now[0], now[1]) < SquaredDistance(start[0], start[1]))
      && (SquaredDistance(now[0], now[1]) == SquaredDistance(start[0], start[1]) ==> t.currentScale == s.currentScale)
      && (SquaredDistance(now[0], now[1]) > SquaredDistance(start[0], start[1]) && s.currentScale < MaxScale ==> t.currentScale > s.currentScale)
      && (SquaredDistance(now[0], now[1]) < SquaredDistance(start[0], start[1]) && s.currentScale > MinScale ==> t.currentScale < s.currentScale)
  {
    var es := [TouchStart(start, d0), TouchMove(now, d1)];
    RunPair(s, es[0], es[1]);
    var s1 := Step(s, es[0]);
    PinchMove(s1, now, d1);
    DistanceOrder(d0, start[0], start[1], d1, now[0], now[1]);
  }

  /**
   * Two two-finger moves in a row compound: as long as no bound is hit, the
   * scale is multiplied by the factor of each move, each judged against the
   * distance the move before it stored.
   */
  lemma PinchMovesCompound(s: State, t1: seq<Point>, d1: real, t2: seq<Point>, d2: real)
    requires s.initialDistance > 0.0
    requires |t1| == 2 && WellFormed(TouchMove(t1, d1)) && d1 > 0.0
    requires |t2| == 2 && WellFormed(TouchMove(t2, d2))
    requires MinScale <= s.currentScale * ScaleFactor(s.initialDistance, d1) <= MaxScale
    requires MinScale <= s.currentScale * ScaleFactor(s.initialDistance, d1) * ScaleFactor(d1, d2) <= MaxScale
    ensures var t := Step(Step(s, TouchMove(t1, d1)), TouchMove(t2, d2));
      t.currentScale == s.currentScale * ScaleFactor(s.initialDistance, d1) * ScaleFactor(d1, d2)
  {
    var s1 := Step(s, TouchMove(t1, d1));
    assert s1.currentScale == PinchScale(s.currentScale, s.initialDistance, d1) && s1.initialDistance == d1 by {
      assert s1 == Pinch(Drag(s, t1[0]), t1, d1);
    }
    assert Step(s1, TouchMove(t2, d2)).currentScale == PinchScale(s1.currentScale, d1, d2) by {
      assert Step(s1, TouchMove(t2, d2)) == Pinch(Drag(s1, t2[0]), t2, d2);
    }
    PinchCompounds(s.currentScale, s.initialDistance, d1, d2);
  }

  /**
   * A drag started by a mouse down: after any path of non-pinching moves the
   * container is turned by half a degree per pixel from the down position to
   * the last pointer position, whatever was remembered before.
   */
  lemma DragFromDown(s: State, at: Point, es: seq<Event>)
    requires |es| > 0 && AllWellFormed(es)
    requires forall i :: 0 <= i < |es| ==> IsDragMove(es[i])
    ensures AllWellFormed([MouseDown(at)] + es)
    ensures IsMove(es[|es| - 1]) && var t := Run(s, [MouseDown(at)] + es);
      t.isDragging && t.rotation == Rotate(s.rotation, at, MoveTarget(es[|es| - 1])) &&
      t.previousMousePosition == MoveTarget(es[|es| - 1])
  {
    var all := [MouseDown(at)] + es;
    assert all[1..] == es;
    assert AllWellFormed(all) by {
      forall i | 0 <= i < |all| ensures WellFormed(all[i]) {
        if i > 0 { assert all[i] == es[i - 1]; }
      }
    }
    DragFollowsPointer(Step(s, MouseDown(at)), es);
  }

  /** Two events in a row. */
  lemma RunPair(s: State, e1: Event, e2: Event)
    requires WellFormed(e1) && WellFormed(e2)
    ensures AllWellFormed([e1, e2]) && Run(s, [e1, e2]) == Step(Step(s, e1), e2)
  {
    assert [e1, e2][1..] == [e2];
    assert [e2][1..] == [];
    var s1 := Step(s, e1);
    assert Run(s1, [e2]) == Run(Step(s1, e2), []);
  }

  /**
   * With no positive stored distance a two-finger move leaves the scale as it
   * was and only stores the current distance.
   */
  lemma PinchWithoutBaseline(s: State, touches: seq<Point>, span: real)
    requires s.initialDistance == 0.0
    requires |touches| == 2 && WellFormed(TouchMove(touches, span))
    ensures var t := Step(s, TouchMove(touches, span));
      t.currentScale == s.currentScale && t.modelScale == s.modelScale && t.initialDistance == span
  {
  }

  /** The numbers line 339-340 of scripts/main.js can produce under IEEE 754 arithmetic. */
  datatype JsNumber = Finite(value: real) | PositiveInfinity | NaN

  /**
   * The pinch expression as written, including a stored distance of zero:
   * cur / 0 is +Infinity for cur > 0, so the clamp yields MaxScale; 0 / 0 is
   * NaN, which Math.min and Math.max pass on. A scale that is already NaN
   * stays NaN, whatever the distances. Defined for the scales and distances
   * the handlers can hold.
   */
  function PinchScaleAsWritten(scale: JsNumber, initialDistance: real, currentDistance: real): (r: JsNumber)
    requires !scale.PositiveInfinity?
    requires scale.Finite? ==> MinScale <= scale.value <= MaxScale
    requires initialDistance >= 0.0 && currentDistance >= 0.0
    ensures !r.PositiveInfinity?
    ensures r.Finite? ==> MinScale <= r.value <= MaxScale
    ensures r.NaN? <==> scale.NaN? || (initialDistance == 0.0 && currentDistance == 0.0)
    ensures scale.Finite? && initialDistance == 0.0 && currentDistance > 0.0 ==> r == Finite(MaxScale)
  {
    if scale.NaN? then NaN
    else if initialDistance > 0.0 then Finite(PinchScale(scale.value, initialDistance, currentDistance))
    else if currentDistance > 0.0 then Finite(MaxScale)
    else NaN
  }

  /**
   * Counterexample to "the scale stays in bounds and follows the fingers" for
   * the code as written: with a stored distance of 0 (no two-finger
   * touchstart yet, or one on a single point) a one-pixel spread jumps the
   * scale from 0.5 to 3.0; a move that closes the touches from 100 pixels
   * takes 0.5 to 0.4 and stores 0, so the next spread jumps from 0.4 to 3.0;
   * and touches that stay together make it NaN, which no later move undoes.
   */
  lemma AsWrittenPinchWithoutBaseline()
    ensures PinchScaleAsWritten(Finite(0.5), 0.0, 1.0) == Finite(MaxScale)
    ensures PinchScaleAsWritten(Finite(0.5), 100.0, 0.0) == Finite(0.4)
    ensures PinchScaleAsWritten(PinchScaleAsWritten(Finite(0.5), 100.0, 0.0), 0.0, 1.0) == Finite(MaxScale)
    ensures PinchScaleAsWritten(Finite(0.5), 0.0, 0.0) == NaN
    ensures PinchScaleAsWritten(PinchScaleAsWritten(Finite(0.5), 0.0, 0.0), 0.0, 120.0) == NaN
    ensures PinchScaleAsWritten(NaN, 100.0, 120.0) == NaN
  {
  }

  /**
   * The interaction state held by the handlers of setupModelInteraction. Each
   * method is one event, running the listeners registered for it in order.
   */
  class ModelInteraction {
    var isDragging: bool
    var previousMousePosition: Point
    var containerRotation: Vec3
    var initialDistance: real
    var currentScale: real
    var modelScale: Vec3

    function Snapshot(): State
      reads this
    {
      State(isDragging, previousMousePosition, containerRotation, initialDistance, currentScale, modelScale)
    }

    ghost predicate Valid()
      reads this
    {
      Inv(Snapshot())
    }

    /** Registers the handlers; `rotation` and `scale` are the attributes set in the scene markup. */
    constructor (rotation: Vec3, scale: Vec3)
      ensures Valid() && Snapshot() == Initial(rotation, scale)
    {
      isDragging := false;
      previousMousePosition := Point(0.0, 0.0);
      containerRotation := rotation;
      initialDistance := 0.0;
      currentScale := InitialScale;
      modelScale := scale;
    }

    method OnMouseDown(at: Point)
      requires Valid()
      modifies this
      ensures Valid() && Snapshot() == Step(old(Snapshot()), MouseDown(at))
    {
      isDragging := true;
      previousMousePosition := at;
    }

    /** The drag listener shared by mousemove and touchmove. */
    method DragTo(at: Point)
      requires Valid()
      modifies this
      ensures Valid() && Snapshot() == Drag(old(Snapshot()), at)
    {
      if !isDragging {
        return;
      }
      var dx, dy := at.x - previousMousePosition.x, at.y - previousMousePosition.y;
      containerRotation := Vec3(containerRotation.x + dy * DragSensitivity,
                                containerRotation.y + dx * DragSensitivity,
                                containerRotation.z);
      previousMousePosition := at;
    }

    method OnMouseMove(at: Point)
      requires Valid()
      modifies this
      ensures Valid() && Snapshot() == Step(old(Snapshot()), MouseMove(at))
    {
      DragTo(at);
    }

    method OnMouseUp()
      requires Valid()
      modifies this
      ensures Valid() && Snapshot() == Step(old(Snapshot()), MouseUp)
    {
      isDragging := false;
    }

    method OnTouchStart(touches: seq<Point>, span: real)
      requires Valid() && WellFormed(TouchStart(touches, span))
      modifies this
      ensures Valid() && Snapshot() == Step(old(Snapshot()), TouchStart(touches, span))
    {
      // drag listener
      isDragging := true;
      previousMousePosition := touches[0];
      // pinch listener
      if |touches| == 2 {
        initialDistance := span;
      }
    }

    method OnTouchMove(touches: seq<Point>, span: real)
      requires Valid() && WellFormed(TouchMove(touches, span))
      modifies this
      ensures Valid() && Snapshot() == Step(old(Snapshot()), TouchMove(touches, span))
    {
      // drag listener
      DragTo(touches[0]);
      // pinch listener
      if |touches| == 2 {
        if initialDistance > 0.0 {
          var factor := ScaleFactor(initialDistance, span);
          currentScale := Clamp(currentScale * factor, MinScale, MaxScale);
          modelScale := Vec3(currentScale, currentScale, currentScale);
        }
        initialDistance := span;
      }
    }

    method OnTouchEnd()
      requires Valid()
      modifies this
      ensures Valid() && Snapshot() == Step(old(Snapshot()), TouchEnd)
    {
      isDragging := false;
    }
  }
}

=== FILE: model_tracking.dfy ===
/**
 * The model-loading counter (setupModelTracking in scripts/main.js).
 *
 * Each 'model-loaded' event counts one more model, sets the loader bar to
 * the loaded share of TotalModels (in percent, without a cap) when the page
 * has a loader bar, and hides the loading screen once TotalModels have been
 * counted.
 */
module ModelTracking {

  const TotalModels: nat := 3

  /** `loaderWidth` is the loader bar's width in percent; `loadingScreenHidden` is its display being 'none'. */
  datatype LoadState = LoadState(modelsLoaded: nat, loaderWidth: real, loadingScreenHidden: bool)

  /** Once three or more models are counted, the loading screen is hidden. */
  predicate Inv(s: LoadState)
  {
    s.modelsLoaded >= TotalModels ==> s.loadingScreenHidden
  }

  /**
   * The loader width for `loaded` models: `loaded` thirds of 100. It is 100
   * exactly when all models are in, and goes past 100 beyond that.
   */
  function Progress(loaded: nat): (p: real)
    ensures p >= 0.0
    ensures p == 100.0 <==> loaded == TotalModels
    ensures p > 100.0 <==> loaded > TotalModels
    ensures p * TotalModels as real == loaded as real * 100.0
  {
    (loaded as real / TotalModels as real) * 100.0
  }

  /** More models loaded means a wider bar. */
  lemma ProgressIncreases(m: nat, n: nat)
    requires m < n
    ensures Progress(m) < Progress(n)
  {
  }

  /** The 'model-loaded' listener; `hasLoader` is whether the page has a loader bar. */
  function ModelLoaded(s: LoadState, hasLoader: bool): (t: LoadState)
    ensures t.modelsLoaded == s.modelsLoaded + 1
    ensures Inv(t)
    ensures s.loadingScreenHidden ==> t.loadingScreenHidden
    ensures !hasLoader ==> t.loaderWidth == s.loaderWidth
  {
    var loaded := s.modelsLoaded + 1;
    LoadState(
      loaded,
      if hasLoader then Progress(loaded) else s.loaderWidth,
      if loaded >= TotalModels then true else s.loadingScreenHidden)
  }

  /** `n` 'model-loaded' events in a row. */
  function Loads(s: LoadState, hasLoader: bool, n: nat): LoadState
  {
    if n == 0 then s else ModelLoaded(Loads(s, hasLoader, n - 1), hasLoader)
  }

  /**
   * After `n` events the count has grown by exactly `n`, the bar shows the
   * progress of the new count, and the screen is hidden exactly when it
   * already was or the count reached TotalModels.
   */
  lemma {:induction false} LoadsCount(s: LoadState, hasLoader: bool, n: nat)
    ensures Loads(s, hasLoader, n).modelsLoaded == s.modelsLoaded + n
    ensures hasLoader && n > 0 ==> Loads(s, hasLoader, n).loaderWidth == Progress(s.modelsLoaded + n)
    ensures !hasLoader ==> Loads(s, hasLoader, n).loaderWidth == s.loaderWidth
    ensures Loads(s, hasLoader, n).loadingScreenHidden <==>
      s.loadingScreenHidden || (n > 0 && s.modelsLoaded + n >= TotalModels)
  {
    if n > 0 {
      LoadsCount(s, hasLoader, n - 1);
    }
  }

  /** From a fresh page, the fourth event sets the bar past 100 percent. */
  lemma FourthLoadOverflows(width: real)
    ensures Loads(LoadState(0, width, false), true, 4).loaderWidth > 100.0
    ensures Loads(LoadState(0, width, false), true, 3).loaderWidth == 100.0
  {
    LoadsCount(LoadState(0, width, false), true, 4);
    LoadsCount(LoadState(0, width, false), true, 3);
  }

  /** The listener state of setupModelTracking. */
  class LoadTracker {
    const hasLoader: bool
    var modelsLoaded: nat
    var loaderWidth: real
    var loadingScreenHidden: bool

    function Snapshot(): LoadState
      reads this
    {
      LoadState(modelsLoaded, loaderWidth, loadingScreenHidden)
    }

    ghost predicate Valid()
      reads this
    {
      Inv(Snapshot())
    }

    /** `width` and `hidden` are the bar's width and the screen's display before any event. */
    constructor (loaderPresent: bool, width: real, hidden: bool)
      ensures Valid() && hasLoader == loaderPresent
      ensures Snapshot() == LoadState(0, width, hidden)
    {
      hasLoader := loaderPresent;
      modelsLoaded := 0;
      loaderWidth := width;
      loadingScreenHidden := hidden;
    }

    method OnModelLoaded()
      requires Valid()
      modifies this
      ensures Valid() && Snapshot() == ModelLoaded(old(Snapshot()), hasLoader)
    {
      modelsLoaded := modelsLoaded + 1;
      if hasLoader {
        var progress := (modelsLoaded as real / TotalModels as real) * 100.0;
        loaderWidth := progress;
      }
      if modelsLoaded >= TotalModels {
        loadingScreenHidden := true;
      }
    }
  }
}

=== FILE: tracking_indicators.dfy ===
/**
 * The tracking status and instruction text (setupTrackingIndicators in
 * scripts/main.js): a found marker turns the status green and shows a
 * message chosen by the marker's id; a lost marker turns it red and shows
 * the scan prompt.
 */
module TrackingIndicators {

  const PortalMarker: string := "portal-marker"
  const ImpossibleMarker: string := "impossible-marker"
  const GlitchMarker: string := "glitch-marker"

  const PortalMessage: string := "Portal to another dimension detected!"
  const ImpossibleMessage: string := "Impossible geometry disrupting reality!"
  const GlitchMessage: string := "System error: Reality corruption detected!"
  const DefaultMessage: string := "Reality glitch detected!"
  const ScanPrompt: string := "Scan markers to reveal glitches in reality"

  /** The status background: '#00ff00' on markerFound, 'red' on markerLost. */
  datatype StatusColor = Green | Red

  predicate KnownMarker(markerId: string)
  {
    markerId == PortalMarker || markerId == ImpossibleMarker || markerId == GlitchMarker
  }

  /**
   * The instruction for a found marker: one of the four fixed messages; the
   * default one exactly for ids that are not one of the three markers; never
   * the scan prompt.
   */
  function FoundMessage(markerId: string): (m: string)
    ensures m == PortalMessage || m == ImpossibleMessage || m == GlitchMessage || m == DefaultMessage
    ensures m == DefaultMessage <==> !KnownMarker(markerId)
    ensures m != ScanPrompt
  {
    assert PortalMessage[0] != DefaultMessage[0];
    assert ImpossibleMessage[0] != DefaultMessage[0];
    assert GlitchMessage[0] != DefaultMessage[0];
    assert |ScanPrompt| != |PortalMessage| && |ScanPrompt| != |ImpossibleMessage|;
    assert ScanPrompt[1] != GlitchMessage[1] && |ScanPrompt| != |DefaultMessage|;
    if markerId == PortalMarker then PortalMessage
    else if markerId == ImpossibleMarker then ImpossibleMessage
    else if markerId == GlitchMarker then GlitchMessage
    else DefaultMessage
  }

  /** The message tells the three markers apart: two ids with the same message are the same marker. */
  lemma FoundMessageIdentifiesMarker(a: string, b: string)
    requires KnownMarker(a) && FoundMessage(a) == FoundMessage(b)
    ensures a == b
  {
    assert PortalMessage[0] != ImpossibleMessage[0] && PortalMessage[0] != GlitchMessage[0];
    assert ImpossibleMessage[1] != GlitchMessage[1];
  }

  /** The elements setupTrackingIndicators writes. */
  class StatusDisplay {
    var status: StatusColor
    var instructions: string

    /** `color` and `text` are what the page shows before any marker event. */
    constructor (color: StatusColor, text: string)
      ensures status == color && instructions == text
    {
      status := color;
      instructions := text;
    }

    method OnMarkerFound(markerId: string)
      modifies this
      ensures status == Green && instructions == FoundMessage(markerId)
    {
      status := Green;
      instructions := FoundMessage(markerId);
    }

    method OnMarkerLost()
      modifies this
      ensures status == Red && instructions == ScanPrompt
    {
      status := Red;
      instructions := ScanPrompt;
    }
  }
}
